=== FILE: README.md ===
# Session and token-refresh model of react-change-title-auth-wp

This project models the session logic of a small Next.js front-end that logs
a user in against a WordPress REST API, keeps the session in `localStorage`,
and lets the user edit the site title. All of its real logic concerns the
session and the token refresh:

- the expiry check on a JWT (`isTokenExpired`);
- the request interceptor of the shared axios client. It attaches `Bearer`
  tokens, refreshes an expired access token before sending, and aborts when
  the refresh token is unusable;
- the response interceptor. On a 403 it refreshes the tokens and replays the
  request through the same client;
- the storage effects of the API `login` and `logout`;
- the `AuthProvider` context: rehydration on start-up, `login`, `logout`,
  and `useAuth`;
- the route guard and the home page redirect;
- the status logic of the settings page: validation, the busy flags, the
  messages, and logout.

Every step is a pure function over immutable values. `localStorage` is a
`map<string, string>` (`Browser.Store`) and `clear()` gives the empty map.
Navigation is a path that the step emits. The environment enters only as
parameters:

- `jwtDecode` is a decoder `string -> Decoded`. It gives either a decoding
  failure or a payload whose `exp` claim may be missing.
- `Date.now()` is a `now` parameter in milliseconds.
- Each call to the refresh endpoint has a `RefreshReply` outcome:
  `Refreshed(access, refresh)` or `RefreshFailed`.
- Each pass of a request through the client is driven by an `Api.Round`. A
  round holds the clock, the two possible refresh answers, and the server's
  reply. `Api.Dispatch` takes one round per pass. If the rounds run out
  before the request settles, the outcome is `None`, meaning the request is
  still waiting.

JavaScript truthiness is modelled where the code relies on it. A stored
empty string counts as absent in `if (accessToken)`, `if (refreshToken)`,
`accessToken && storedUserId`, and in the `message || fallback` rules.
`parseInt(s, 10)` and `toString()` on the user id are modelled, including
`NaN`. This makes it possible to prove that a login survives a reload with
the same user id.

Modules: `Options` (option/result values), `JsText` (`includes`, integer
`toString`, `parseInt`), `Browser` (storage and paths), `Api`
(`src/lib/api.ts`), `AuthContext`, `Routes` (`useProtectedRoute` and the
home page), and `SettingsPage`.

Invariants proved across modules:

- `Browser.Coherent`: the three session keys are all present or all absent.
  Every interceptor pass, login and logout preserves it.
- `AuthContext.Consistent`: the user id is null exactly when the user is not
  authenticated. `Init`, `Login`, `Logout` and the page logout preserve it.

Behaviours of the code worth knowing, all kept in the model:

- **The 403 replay is not bounded.** The replayed request goes through the
  same interceptor again, so every further 403 followed by a successful
  refresh causes another replay. `Api.ReplayIsUnbounded` proves that for
  every `n` there is a run with `n` refreshes and `n` passes that has still
  not settled.
- **Expiry uses a strict comparison.** The code uses `exp * 1000 < now`, so
  a token is still valid at the exact millisecond of its expiry
  (`Api.ExpiryBoundary`).
- **A payload without `exp` never expires.** The comparison is then against
  NaN, which is false.
- **An expired refresh token does not end the session.** When both tokens
  have expired the request interceptor only throws: storage is untouched
  and there is no redirect (`Api.ExpiredSessionAbortsUntouched`).
- **A successful title update does not update the shown title.** It only
  sets the success message; `currentTitle` is unchanged (`SettingsPage.SubmitSettled`).
- **A failed request-side refresh lets the request go on.** The request
  proceeds with the config it came with, so it is unauthenticated on a first
  pass. On a replay it still carries the header the response interceptor
  put on it.
- **An empty access token does not survive a reload.** Login stores it and
  authenticates, but the start-up check treats `""` as missing
  (`AuthContext.LoginThenReload`).

## Model

| member | source | states |
|---|---|---|
| Api.IsTokenExpired | src/lib/api.ts:15-22 | An undecodable token counts as expired. A token with an `exp` claim is expired iff `exp*1000 < now`. A payload without `exp` is never expired. |
| Api.ExpiryIsMonotone | src/lib/api.ts:18 | A token that is expired at some time is still expired at every later time. |
| Api.ExpiryBoundary | src/lib/api.ts:18 | A token is not expired when `exp*1000 == now` and is expired one millisecond later. |
| Browser.SetTokens | src/lib/api.ts:36-37 | A refresh writes the new access and refresh tokens and keeps every other key, including `user_id`. |
| Browser.SetTokensKeepsCoherent | src/lib/api.ts:62-63 | Rewriting the tokens of a stored session keeps the three keys together and does not change `user_id`. |
| Api.OnRequest | src/lib/api.ts:25-50 | With no access token, the request goes on unchanged and storage is untouched. With a live token, the header is `Bearer <token>`. With an expired token and no usable refresh token, the request aborts with the session-expired error and no call. A refresh happens exactly when the access token is expired and the refresh token is valid. On success it stores both new tokens and uses the new one. On failure it clears storage, emits `/login`, and the request proceeds with its original config. |
| Api.OnRequestKeepsCoherent | src/lib/api.ts:29-43 | The request interceptor never leaves the session keys partly written. |
| Api.OnResponseError | src/lib/api.ts:53-75 | A non-403, a 403 on a URL containing `/refresh`, or a 403 with no stored refresh token is rejected unchanged and storage is untouched. Otherwise a refresh is made. On success both tokens are stored and the request is replayed with `Bearer <new access>`. On failure storage is cleared, `/login` is emitted, and the original error is rejected. |
| Api.OnResponseErrorKeepsCoherent | src/lib/api.ts:58-70 | The response interceptor never leaves the session keys partly written. |
| JsText.IncludesIffOccurs | src/lib/api.ts:56 | The modelled `url.includes('/refresh')` holds exactly when the fragment occurs at some offset of the URL. |
| Api.Dispatch | src/lib/api.ts:25-75 | The chain makes at most one pass per round, and at least one when given a round. A request still waiting has used every round. Each pass calls the refresh endpoint at most twice. Each refresh call either feeds a replay or emits a redirect, never both, so passes plus redirects never exceed refresh calls plus one. The outcome and storage of a pass are fixed by the `OnRequest` and `OnResponseError` contracts and the first-pass lemmas below. |
| Api.LiveTokenResolves | src/lib/api.ts:25-54 | With a truthy live access token and a 200 reply, the request settles on its first pass with that reply's data, with no refresh, no redirect and storage unchanged. |
| Api.ProactiveRefreshSendsNewToken | src/lib/api.ts:27-47 | With an expired access token and a live refresh token, one refresh is made before sending. Both new tokens are stored and the request goes out with `Bearer <new access>`, as the error for a 500 reply shows. |
| Api.DispatchKeepsCoherent | src/lib/api.ts:25-75 | Any number of passes through both interceptors keeps the three session keys all present or all absent. |
| Api.ExpiredSessionAbortsUntouched | src/lib/api.ts:27-31 | With both tokens expired, the request is rejected on its first pass with the session-expired error. There is no refresh call and no redirect, and storage is unchanged. |
| Api.ReplayIsUnbounded | src/lib/api.ts:56-66 | Under a server that keeps answering 403 and a refresh endpoint that keeps succeeding, `n` rounds give `n` refreshes and `n` passes with no outcome, for every `n`. |
| Api.StoreTokens | src/lib/api.ts:79-81 | A login response writes `access_token`, `refresh_token` and the decimal `user_id`, and keeps every other key. |
| Api.Login | src/lib/api.ts:77-83 | A successful login writes the returned access token, refresh token and decimal user id, and keeps every other key. A failed one leaves storage as it was. |
| Api.Logout | src/lib/api.ts:85-91 | The logout endpoint is called iff a refresh token is stored, and the call is a POST to `/cja/v1/logout` through the shared client with its interceptors. Storage is cleared by `logout` only after that call resolves, or at once when there is no token. A failed or pending call leaves storage as the client left it. |
| Api.LogoutKeepsCoherent | src/lib/api.ts:85-91 | Logging out keeps the three session keys together. |
| JsText.IntToString | src/contexts/AuthContext.tsx:40 | `user_id.toString()` is non-empty, starts with `-` exactly for negative ids, and is all digits otherwise. |
| JsText.NatToDecimal | src/contexts/AuthContext.tsx:40 | A decimal numeral is a non-empty digit string whose first digit is `0` only for zero. |
| JsText.ParseInt | src/contexts/AuthContext.tsx:32 | `parseInt` of the empty string is NaN. A string starting with a digit parses to a non-negative number. A string starting with any other non-space, non-sign character is NaN. |
| JsText.ParseIntOfIntToString | src/contexts/AuthContext.tsx:32-40 | Parsing the stored `user_id` string returns the id that was written. |
| AuthContext.Init | src/contexts/AuthContext.tsx:17-35 | If either key is missing, nothing changes. If both are stored and the access token has expired, storage is cleared and the user is unauthenticated with a null id. If both are stored and the token is live, the user is authenticated with the parsed stored id. Consistency and coherence are preserved. |
| AuthContext.InitIgnoresRefreshToken | src/contexts/AuthContext.tsx:20-35 | The start-up session does not depend on the stored refresh token. |
| AuthContext.Login | src/contexts/AuthContext.tsx:37-43 | Login writes all three keys, sets authenticated to true and sets the user id to the token's id. |
| AuthContext.Logout | src/contexts/AuthContext.tsx:45-49 | Logout clears all of storage, not just the three session keys, and sets authenticated to false and the id to null, whatever the prior state. |
| AuthContext.LoginThenReload | src/contexts/AuthContext.tsx:20-43 | Rehydrating the storage a login left restores the session that login produced, unless the access token is empty or has expired by then; in those cases the reloaded session is unauthenticated. |
| AuthContext.LogoutThenReload | src/contexts/AuthContext.tsx:20-49 | After logout, rehydration finds nothing and stays unauthenticated. |
| AuthContext.UseAuth | src/contexts/AuthContext.tsx:58-64 | `useAuth` fails with its message exactly when there is no provider value, and otherwise returns that value. |
| AuthContext.ProviderValueIsConsistent | src/contexts/AuthContext.tsx:17-64 | Inside a provider whose state came from start-up, `login` or `logout`, `useAuth` succeeds and hands out a session whose user id is null exactly when it is unauthenticated. |
| Routes.ProtectedRedirect | src/hooks/useProtectedRoute.ts:12-18 | Unauthenticated off `/login` goes to `/login`. Authenticated on `/login` goes to `/settings`. Otherwise there is no redirect. |
| Routes.ProtectedRedirectIsIdempotent | src/hooks/useProtectedRoute.ts:12-18 | Re-running the guard at its own target with the same flag gives no redirect. |
| Routes.Home | src/app/page.tsx:7-20 | The home page renders nothing and always pushes exactly one path: `/settings` when authenticated, `/login` otherwise. |
| Routes.HomeRedirectIsGuardStable | src/app/page.tsx:11-17 | The guard accepts the home page's target without redirecting again. |
| SettingsPage.ValidateTitle | src/app/settings/page.tsx:14-16 | A title is refused, with 'Title is required', exactly when it is empty. |
| SettingsPage.SubmitSendsOnlyValidTitles | src/app/settings/page.tsx:14-16 | Every update the form sends carries a title the schema accepts unchanged, and every refused title produces the schema's message. |
| SettingsPage.ErrorText | src/app/settings/page.tsx:59-60 | The message shown is the response body's non-empty `message`, or else the fallback. |
| SettingsPage.ErrorTextIsNonEmpty | src/app/settings/page.tsx:43 | With a non-empty fallback, the error message shown is never empty. |
| SettingsPage.TitleFetched | src/app/settings/page.tsx:36-48 | After the fetch settles, loading is off. Success shows the fetched title. Failure sets the body message or 'Failed to fetch title'. While pending, nothing changes. |
| SettingsPage.ControlsEnabledOnceTitleSettles | src/app/settings/page.tsx:27-102 | The input and both buttons are disabled exactly when any of `isUpdating`, `isLoggingOut` or `isTitleLoading` is set. The page mounts with them disabled, and they are enabled exactly once the title fetch has settled. |
| SettingsPage.BeginSubmit | src/app/settings/page.tsx:52-53 | Starting an update only sets `isUpdating`, which disables the controls. |
| SettingsPage.SubmitSettled | src/app/settings/page.tsx:54-65 | Success sets 'Title updated successfully!' and clears the error. Failure sets the body message or 'Update failed' and clears the success message. `isUpdating` is reset either way. The shown title does not change. |
| SettingsPage.Submit | src/app/settings/page.tsx:52-66 | The update is sent iff the title is non-empty. An empty title gives the schema message and leaves the page unchanged. |
| SettingsPage.SubmitSettlesCleanly | src/app/settings/page.tsx:52-66 | A settled update leaves exactly one of success and error set, and the controls as before. While pending, the controls stay disabled. |
| SettingsPage.ExpiredSessionSubmitShowsFallback | src/app/settings/page.tsx:58-62 | An update on a session with both tokens expired makes no refresh call, leaves storage as it was, and shows 'Update failed'. |
| SettingsPage.BeginLogout | src/app/settings/page.tsx:68-69 | Starting logout only sets `isLoggingOut`, which disables the controls. |
| SettingsPage.LogoutSettled | src/app/settings/page.tsx:70-76 | Only a successful API logout is followed by the context logout and the push to `/login`. A failure changes neither session nor storage further. `isLoggingOut` is reset once the call has settled. |
| SettingsPage.HandleLogout | src/app/settings/page.tsx:68-77 | The page navigates to `/login` iff the API logout succeeded, and then the session is unauthenticated and storage is cleared. Otherwise the session is unchanged and stays consistent. |

## Left out

- HTTP transport: base URL, JSON bodies and headers other than `Authorization`. These are foreign library behaviour. Request bodies (credentials, refresh token, title) are not modelled.
- `jwtDecode` internals: base64 and JSON parsing. The decoder is a parameter.
- Non-integer `exp` claims and user ids, and integers beyond 2^53. Numbers are unbounded integers here.
- The user id is never rendered. A `NaN` from `parseInt` is kept as a value in the session.
- Asynchronous interleaving, effects running twice, and several tabs sharing storage. Each handler is modelled as one step before its `await` and one after it.
- Axios errors that carry no config. Every modelled axios failure carries the config that was sent.
- Rendering, JSX, and react-hook-form internals other than the minimum-length rule. The `errors.title` display is kept only as the returned field error.
- An error that escapes `handleLogout` becomes an unhandled rejection in the browser. The model only records that nothing else happens.
- The request interceptor also sees requests the client sends for a replay. Its effects are included in `Api.Dispatch`. The refresh and login POSTs use the bare axios client, so they never go through the interceptors. They are modelled only as their abstract outcomes.

=== FILE: api.dfy ===
/**
 * The HTTP client of `src/lib/api.ts`: the expiry check, the request and
 * response interceptors of the shared client, the chain of passes a request
 * makes through them, and the storage effects of `login` and `logout`.
 *
 * Everything the client asks of its environment is an input: the JWT decoder,
 * the clock, the replies of the refresh endpoint and of the server.
 */
module Api {
  import opened Options
  import opened Browser
  import JsText

  // ---------------------------------------------------------------------
  // Expiry
  // ---------------------------------------------------------------------

  /**
   * What `jwtDecode` makes of a token: an exception, or a payload whose `exp`
   * claim (seconds since the epoch) may be missing.
   */
  datatype Decoded = Undecodable | Payload(exp: Option<int>)

  /** `isTokenExpired(token)` when `Date.now()` reads `now` milliseconds. */
  function IsTokenExpired(decode: string -> Decoded, now: int, token: string): (expired: bool)
    ensures decode(token).Undecodable? ==> expired
    ensures decode(token).Payload? && decode(token).exp.Some? ==>
              (expired <==> decode(token).exp.value * 1000 < now)
    ensures decode(token) == Payload(None) ==> !expired
  {
    match decode(token)
    case Undecodable => true
    // `undefined * 1000 < now` compares NaN, which is never less than anything
    case Payload(None) => false
    case Payload(Some(exp)) => exp * 1000 < now
  }

  /** Once expired, a token stays expired as the clock moves forward. */
  lemma ExpiryIsMonotone(decode: string -> Decoded, token: string, now: int, later: int)
    requires now <= later
    requires IsTokenExpired(decode, now, token)
    ensures IsTokenExpired(decode, later, token)
  {
  }

  /** At the very millisecond of its `exp` claim a token is still valid; one later it is not. */
  lemma ExpiryBoundary(decode: string -> Decoded, token: string, exp: int)
    requires decode(token) == Payload(Some(exp))
    ensures !IsTokenExpired(decode, exp * 1000, token)
    ensures IsTokenExpired(decode, exp * 1000 + 1, token)
  {
  }

  // ---------------------------------------------------------------------
  // Requests, replies and errors
  // ---------------------------------------------------------------------

  /** The part of an axios request config the interceptors read or write. */
  datatype Config = Config(url: Option<string>, authorization: Option<string>)

  /** The fields of a JSON response body the application reads. */
  datatype Body = Body(title: Option<string>, message: Option<string>)

  datatype ErrorResponse = ErrorResponse(status: int, data: Body)

  /** A rejection as the callers of the client see it. */
  datatype ApiError =
    | Thrown(message: string)
      // a plain `Error` thrown by the request interceptor
    | AxiosFailure(response: Option<ErrorResponse>, config: Config)
      // an error status, or no response at all

  /** The outcome of a POST to the refresh endpoint. */
  datatype RefreshReply = Refreshed(access: string, refresh: string) | RefreshFailed

  const SessionExpiredMessage: string := "Refresh token expired. Please login again."

  /** Requests whose URL contains this are never answered by a refresh. */
  const RefreshUrlFragment: string := "/refresh"

  function Bearer(token: string): string {
    "Bearer " + token
  }

  /** The header step: a truthy access token becomes the Authorization header. */
  function Authorize(cfg: Config, token: Option<string>): Config {
    if Truthy(token) then cfg.(authorization := Some(Bearer(token.value))) else cfg
  }

  // ---------------------------------------------------------------------
  // Request interceptor
  // ---------------------------------------------------------------------

  datatype RequestResult = Proceed(config: Config) | Abort(error: ApiError)

  /** What one run of the request interceptor leaves behind. */
  datatype RequestStep = RequestStep(
    store: Store,
    result: RequestResult,
    redirect: Option<string>,
    refreshCalled: bool)

  /**
   * The request interceptor: attach the stored access token, refreshing it
   * first when it has expired; `refresh` is what the refresh endpoint answers
   * if it is called.
   */
  function OnRequest(st: Store, cfg: Config, decode: string -> Decoded, now: int, refresh: RefreshReply)
    : (s: RequestStep)
    // no access token: nothing is refreshed, stored or attached
    ensures !Truthy(GetItem(st, AccessTokenKey)) ==>
              s == RequestStep(st, Proceed(cfg), None, false)
    // a live access token is attached as it is
    ensures var access := GetItem(st, AccessTokenKey);
            Truthy(access) && !IsTokenExpired(decode, now, access.value) ==>
              s == RequestStep(st, Proceed(cfg.(authorization := Some(Bearer(access.value)))), None, false)
    // an expired access token with no usable refresh token aborts without a network call
    ensures var access := GetItem(st, AccessTokenKey);
            var rt := GetItem(st, RefreshTokenKey);
            Truthy(access) && IsTokenExpired(decode, now, access.value)
            && (!Truthy(rt) || IsTokenExpired(decode, now, rt.value)) ==>
              s == RequestStep(st, Abort(Thrown(SessionExpiredMessage)), None, false)
    // a refresh is attempted exactly when both checks above pass
    ensures var access := GetItem(st, AccessTokenKey);
            var rt := GetItem(st, RefreshTokenKey);
            s.refreshCalled <==>
              Truthy(access) && IsTokenExpired(decode, now, access.value)
              && Truthy(rt) && !IsTokenExpired(decode, now, rt.value)
    // a successful refresh replaces both tokens, keeps the user id and uses the new token
    ensures s.refreshCalled && refresh.Refreshed? ==>
              && s.store == SetTokens(st, refresh.access, refresh.refresh)
              && GetItem(s.store, UserIdKey) == GetItem(st, UserIdKey)
              && s.result == Proceed(Authorize(cfg, Some(refresh.access)))
              && s.redirect == None
    // a failed refresh clears the session, sends the browser to the login page,
    // and lets the request go on with the config it came with
    ensures s.refreshCalled && refresh.RefreshFailed? ==>
              s == RequestStep(Cleared, Proceed(cfg), Some(LoginPath), true)
  {
    var access := GetItem(st, AccessTokenKey);
    if Truthy(access) && IsTokenExpired(decode, now, access.value) then
      var rt := GetItem(st, RefreshTokenKey);
      if !Truthy(rt) || IsTokenExpired(decode, now, rt.value) then
        RequestStep(st, Abort(Thrown(SessionExpiredMessage)), None, false)
      else
        match refresh
        case Refreshed(a, r) =>
          RequestStep(SetTokens(st, a, r), Proceed(Authorize(cfg, Some(a))), None, true)
        case RefreshFailed =>
          RequestStep(Cleared, Proceed(cfg), Some(LoginPath), true)
    else
      RequestStep(st, Proceed(Authorize(cfg, access)), None, false)
  }

  lemma OnRequestKeepsCoherent(st: Store, cfg: Config, decode: string -> Decoded, now: int, refresh: RefreshReply)
    requires Coherent(st)
    ensures Coherent(OnRequest(st, cfg, decode, now, refresh).store)
  {
  }

  // ---------------------------------------------------------------------
  // Response interceptor
  // ---------------------------------------------------------------------

  datatype ResponseAction = Reject(error: ApiError) | Replay(config: Config)

  /** What one run of the response interceptor's error handler leaves behind. */
  datatype ResponseStep = ResponseStep(
    store: Store,
    action: ResponseAction,
    redirect: Option<string>,
    refreshCalled: bool)

  /** A 403 from a request whose URL does not mention the refresh endpoint. */
  predicate IsRefreshable(err: ApiError) {
    && err.AxiosFailure?
    && err.response.Some?
    && err.response.value.status == 403
    && !(err.config.url.Some? && JsText.Includes(err.config.url.value, RefreshUrlFragment))
  }

  /**
   * The error handler of the response interceptor: a refreshable 403 with a
   * stored refresh token triggers a refresh and a replay of the request;
   * every other error is passed on unchanged.
   */
  function OnResponseError(st: Store, err: ApiError, refresh: RefreshReply): (s: ResponseStep)
    // anything but a refreshable 403 with a stored refresh token is rejected as it came
    ensures !(IsRefreshable(err) && Truthy(GetItem(st, RefreshTokenKey))) ==>
              s == ResponseStep(st, Reject(err), None, false)
    ensures s.refreshCalled <==> IsRefreshable(err) && Truthy(GetItem(st, RefreshTokenKey))
    // a replay happens only after a successful refresh, with both new tokens stored
    ensures s.action.Replay? <==> s.refreshCalled && refresh.Refreshed?
    ensures s.action.Replay? ==>
              && s.store == SetTokens(st, refresh.access, refresh.refresh)
              && s.action.config == err.config.(authorization := Some(Bearer(refresh.access)))
              && s.redirect == None
    // a failed refresh clears the session, redirects and rejects the original error
    ensures s.refreshCalled && refresh.RefreshFailed? ==>
              s == ResponseStep(Cleared, Reject(err), Some(LoginPath), true)
  {
    if IsRefreshable(err) && Truthy(GetItem(st, RefreshTokenKey)) then
      match refresh
      case Refreshed(a, r) =>
        ResponseStep(SetTokens(st, a, r), Replay(err.config.(authorization := Some(Bearer(a)))), None, true)
      case RefreshFailed =>
        ResponseStep(Cleared, Reject(err), Some(LoginPath), true)
    else
      ResponseStep(st, Reject(err), None, false)
  }

  lemma OnResponseErrorKeepsCoherent(st: Store, err: ApiError, refresh: RefreshReply)
    requires Coherent(st)
    ensures Coherent(OnResponseError(st, err, refresh).store)
  {
  }

  // ---------------------------------------------------------------------
  // The whole chain
  // ---------------------------------------------------------------------

  /** The server's reply to a request that was sent. */
  datatype Reply = Answer(status: int, data: Body) | NoResponse

  /**
   * Everything the environment contributes to one pass of a request through
   * the interceptors: the clock, the refresh endpoint's answer to the request
   * interceptor and to the response interceptor, and the server's reply.
   */
  datatype Round = Round(now: int, requestRefresh: RefreshReply, reply: Reply, responseRefresh: RefreshReply)

  datatype Outcome = Resolved(data: Body) | Rejected(error: ApiError)

  /**
   * A request's history: the storage it leaves, its outcome (`None` while it
   * is still waiting when the rounds run out), the redirects emitted, the
   * calls made to the refresh endpoint and the passes made through the chain.
   */
  datatype Trace = Trace(
    store: Store,
    outcome: Option<Outcome>,
    redirects: seq<string>,
    refreshCalls: nat,
    passes: nat)

  /** axios' default `validateStatus`. */
  predicate IsSuccessStatus(status: int) {
    200 <= status < 300
  }

  /** What sending a request yields, before the response interceptor sees it. */
  function Send(cfg: Config, reply: Reply): Outcome {
    match reply
    case Answer(status, data) =>
      if IsSuccessStatus(status) then Resolved(data)
      else Rejected(AxiosFailure(Some(ErrorResponse(status, data)), cfg))
    case NoResponse => Rejected(AxiosFailure(None, cfg))
  }

  function Emitted(redirect: Option<string>): seq<string> {
    if redirect.Some? then [redirect.value] else []
  }

  function CallCount(called: bool): nat {
    if called then 1 else 0
  }

  /**
   * `api(cfg)`: a pass through the request interceptor, the server and the
   * response interceptor, consuming one round; a replay starts a new pass,
   * with nothing in the client limiting how many.
   */
  function Dispatch(st: Store, cfg: Config, decode: string -> Decoded, rounds: seq<Round>): (t: Trace)
    ensures t.passes <= |rounds|
    ensures t.outcome.None? ==> t.passes == |rounds|
    ensures t.refreshCalls <= 2 * t.passes
    ensures |t.redirects| <= t.refreshCalls
    // a request given a round makes at least one pass, and every pass after
    // the first is a replay that followed a successful refresh
    ensures |rounds| > 0 ==> t.passes >= 1
    ensures t.passes <= t.refreshCalls + 1
    // a failed refresh emits a redirect and ends the chain, so each refresh
    // either fed a replay or emitted a redirect, never both
    ensures t.passes + |t.redirects| <= t.refreshCalls + 1
    decreases |rounds|
  {
    if |rounds| == 0 then Trace(st, None, [], 0, 0)
    else
      var round := rounds[0];
      var req := OnRequest(st, cfg, decode, round.now, round.requestRefresh);
      // an error thrown by the request interceptor reaches the response interceptor too
      var sent := match req.result
        case Abort(e) => Rejected(e)
        case Proceed(c) => Send(c, round.reply);
      match sent
      case Resolved(data) =>
        Trace(req.store, Some(Resolved(data)), Emitted(req.redirect), CallCount(req.refreshCalled), 1)
      case Rejected(e) =>
        var resp := OnResponseError(req.store, e, round.responseRefresh);
        var redirects := Emitted(req.redirect) + Emitted(resp.redirect);
        var calls := CallCount(req.refreshCalled) + CallCount(resp.refreshCalled);
        match resp.action
        case Reject(e') =>
          Trace(resp.store, Some(Rejected(e')), redirects, calls, 1)
        case Replay(c) =>
          var rest := Dispatch(resp.store, c, decode, rounds[1..]);
          Trace(rest.store, rest.outcome, redirects + rest.redirects, calls + rest.refreshCalls, 1 + rest.passes)
  }

  /** No pass through the chain breaks the storage invariant. */
  lemma {:induction false} DispatchKeepsCoherent(st: Store, cfg: Config, decode: string -> Decoded, rounds: seq<Round>)
    requires Coherent(st)
    ensures Coherent(Dispatch(st, cfg, decode, rounds).store)
    decreases |rounds|
  {
    if |rounds| > 0 {
      var round := rounds[0];
      OnRequestKeepsCoherent(st, cfg, decode, round.now, round.requestRefresh);
      var req := OnRequest(st, cfg, decode, round.now, round.requestRefresh);
      var sent := match req.result
        case Abort(e) => Rejected(e)
        case Proceed(c) => Send(c, round.reply);
      if sent.Rejected? {
        OnResponseErrorKeepsCoherent(req.store, sent.error, round.responseRefresh);
        var resp := OnResponseError(req.store, sent.error, round.responseRefresh);
        if resp.action.Replay? {
          DispatchKeepsCoherent(resp.store, resp.action.config, decode, rounds[1..]);
        }
      }
    }
  }

  /**
   * With both tokens expired the request is rejected on its first pass with
   * the session-expired error, before any network call, and storage is left
   * as it was: nothing is cleared and nobody is redirected.
   */
  lemma ExpiredSessionAbortsUntouched(st: Store, cfg: Config, decode: string -> Decoded, rounds: seq<Round>)
    requires |rounds| > 0
    requires Truthy(GetItem(st, AccessTokenKey))
    requires IsTokenExpired(decode, rounds[0].now, st[AccessTokenKey])
    requires Truthy(GetItem(st, RefreshTokenKey))
    requires IsTokenExpired(decode, rounds[0].now, st[RefreshTokenKey])
    ensures Dispatch(st, cfg, decode, rounds)
         == Trace(st, Some(Rejected(Thrown(SessionExpiredMessage))), [], 0, 1)
  {
  }

  /** A live access token is sent as it is, and a successful reply settles the request on its first pass. */
  lemma LiveTokenResolves(st: Store, cfg: Config, decode: string -> Decoded, rounds: seq<Round>, data: Body)
    requires |rounds| > 0
    requires Truthy(GetItem(st, AccessTokenKey))
    requires !IsTokenExpired(decode, rounds[0].now, st[AccessTokenKey])
    requires rounds[0].reply == Answer(200, data)
    ensures Dispatch(st, cfg, decode, rounds) == Trace(st, Some(Resolved(data)), [], 0, 1)
  {
  }

  /**
   * An expired access token with a live refresh token is refreshed before
   * sending: one refresh call, both tokens stored, and the request goes out
   * with the new token (an error reply then carries that config).
   */
  lemma ProactiveRefreshSendsNewToken(
    st: Store, cfg: Config, decode: string -> Decoded, rounds: seq<Round>, a: string, r: string, data: Body)
    requires |rounds| > 0
    requires Truthy(GetItem(st, AccessTokenKey))
    requires IsTokenExpired(decode, rounds[0].now, st[AccessTokenKey])
    requires Truthy(GetItem(st, RefreshTokenKey))
    requires !IsTokenExpired(decode, rounds[0].now, st[RefreshTokenKey])
    requires rounds[0].requestRefresh == Refreshed(a, r) && a != ""
    requires rounds[0].reply == Answer(500, data)
    ensures Dispatch(st, cfg, decode, rounds)
         == Trace(SetTokens(st, a, r),
                  Some(Rejected(AxiosFailure(Some(ErrorResponse(500, data)), cfg.(authorization := Some(Bearer(a)))))),
                  [], 1, 1)
  {
  }

  /** A decoder for which no token ever expires: every payload lacks `exp`. */
  function NoExpiry(token: string): Decoded {
    Payload(None)
  }

  /** `n` passes, each answered by a 403 and each followed by a successful refresh. */
  function ForbiddenRounds(n: nat): (rounds: seq<Round>)
    ensures |rounds| == n
  {
    seq(n, _ => Round(0, RefreshFailed, Answer(403, Body(None, None)), Refreshed("access", "refresh")))
  }

  /**
   * The replay is unbounded: as long as the server keeps answering 403 and
   * the refresh endpoint keeps succeeding, the request goes round again, so
   * for every `n` there is a run with `n` refreshes and `n` passes that has
   * still not settled.
   */
  lemma {:induction false} ReplayIsUnbounded(st: Store, cfg: Config, n: nat)
    requires Truthy(GetItem(st, RefreshTokenKey))
    requires !(cfg.url.Some? && JsText.Includes(cfg.url.value, RefreshUrlFragment))
    ensures var t := Dispatch(st, cfg, NoExpiry, ForbiddenRounds(n));
            t.outcome == None && t.passes == n && t.refreshCalls == n && t.redirects == []
    decreases n
  {
    if n > 0 {
      var rounds := ForbiddenRounds(n);
      var round := rounds[0];
      var req := OnRequest(st, cfg, NoExpiry, round.now, round.requestRefresh);
      assert !req.refreshCalled && req.redirect == None && req.store == st;
      var c := req.result.config;
      assert c.url == cfg.url;
      var e := AxiosFailure(Some(ErrorResponse(403, Body(None, None))), c);
      assert IsRefreshable(e);
      var resp := OnResponseError(st, e, round.responseRefresh);
      assert resp.action.Replay? && resp.redirect == None;
      assert rounds[1..] == ForbiddenRounds(n - 1);
      ReplayIsUnbounded(resp.store, resp.action.config, n - 1);
    }
  }

  // ---------------------------------------------------------------------
  // login and logout
  // ---------------------------------------------------------------------

  /** The tokens the login endpoint returns. */
  datatype AuthTokens = AuthTokens(
    accessToken: string,
    refreshToken: string,
    accessExpiresIn: int,
    refreshExpiresIn: int,
    userId: int)

  /** Writing all three session keys from a login response; other keys are kept. */
  function StoreTokens(st: Store, tokens: AuthTokens): (r: Store)
    ensures GetItem(r, AccessTokenKey) == Some(tokens.accessToken)
    ensures GetItem(r, RefreshTokenKey) == Some(tokens.refreshToken)
    ensures GetItem(r, UserIdKey) == Some(JsText.IntToString(tokens.userId))
    ensures r.Keys == st.Keys + SessionKeys
    ensures forall k :: k in st && k !in SessionKeys ==> r[k] == st[k]
    ensures Coherent(r)
  {
    st[AccessTokenKey := tokens.accessToken]
      [RefreshTokenKey := tokens.refreshToken]
      [UserIdKey := JsText.IntToString(tokens.userId)]
  }

  /**
   * `login(credentials)`: the login endpoint's reply (`None` when the POST
   * throws) and the storage it leaves; storage changes only on success.
   */
  function Login(st: Store, reply: Option<AuthTokens>): (r: Store)
    ensures reply.None? ==> r == st
    ensures reply.Some? ==> r.Keys == st.Keys + SessionKeys
    ensures reply.Some? ==> GetItem(r, UserIdKey) == Some(JsText.IntToString(reply.value.userId))
    ensures reply.Some? ==> r == StoreTokens(st, reply.value)
    ensures Coherent(st) ==> Coherent(r)
  {
    if reply.Some? then StoreTokens(st, reply.value) else st
  }

  const LogoutUrl: string := "/cja/v1/logout"

  datatype LogoutOutcome = LoggedOut | LogoutFailed(error: ApiError) | LogoutPending

  /** What `logout()` leaves: storage, its outcome, and the logout request if one was made. */
  datatype LogoutStep = LogoutStep(store: Store, outcome: LogoutOutcome, call: Option<Trace>)

  /**
   * `logout()`: with a stored refresh token, POST to the logout endpoint
   * through the shared client first and clear storage only once that call
   * has succeeded; with none, clear storage straight away.
   */
  function Logout(st: Store, decode: string -> Decoded, rounds: seq<Round>): (r: LogoutStep)
    ensures r.call.Some? <==> Truthy(GetItem(st, RefreshTokenKey))
    // the call is the POST to the logout endpoint through the shared client
    ensures r.call.Some? ==> r.call.value == Dispatch(st, Config(Some(LogoutUrl), None), decode, rounds)
    ensures r.call.None? ==> r == LogoutStep(Cleared, LoggedOut, None)
    ensures r.outcome.LoggedOut? ==> r.store == Cleared
    ensures r.call.Some? ==> r.outcome.LoggedOut? == (r.call.value.outcome.Some? && r.call.value.outcome.value.Resolved?)
    // storage is cleared by `logout` itself only after a successful call
    ensures r.call.Some? && !r.outcome.LoggedOut? ==> r.store == r.call.value.store
    ensures r.outcome.LogoutFailed? ==> r.call.Some? && r.call.value.outcome == Some(Rejected(r.outcome.error))
  {
    if Truthy(GetItem(st, RefreshTokenKey)) then
      var t := Dispatch(st, Config(Some(LogoutUrl), None), decode, rounds);
      match t.outcome
      case None => LogoutStep(t.store, LogoutPending, Some(t))
      case Some(Resolved(_)) => LogoutStep(Cleared, LoggedOut, Some(t))
      case Some(Rejected(e)) => LogoutStep(t.store, LogoutFailed(e), Some(t))
    else
      LogoutStep(Cleared, LoggedOut, None)
  }

  lemma LogoutKeepsCoherent(st: Store, decode: string -> Decoded, rounds: seq<Round>)
    requires Coherent(st)
    ensures Coherent(Logout(st, decode, rounds).store)
  {
    if Truthy(GetItem(st, RefreshTokenKey)) {
      DispatchKeepsCoherent(st, Config(Some(LogoutUrl), None), decode, rounds);
    }
  }
}

=== FILE: authcontext.dfy ===
/**
 * The session context of `src/contexts/AuthContext.tsx`: the authenticated
 * flag and user id every page reads, rehydrated from storage on start-up and
 * changed only by `login` and `logout`.
 */
module AuthContext {
  import opened Options
  import opened Browser
  import JsText
  import Api

  /** The context value; the user id is what `parseInt` made of the stored id. */
  datatype Session = Session(isAuthenticated: bool, userId: Option<JsText.Number>)

  /** The state before the start-up effect has run, and after a logout. */
  const Unauthenticated: Session := Session(false, None)

  /** The context invariant: there is a user id exactly when the user is authenticated. */
  predicate Consistent(s: Session) {
    s.userId.None? <==> !s.isAuthenticated
  }

  /** A session transition together with the storage it leaves. */
  datatype Step = Step(store: Store, session: Session)

  /**
   * The start-up effect of `AuthProvider`, run on the current state `s`: a
   * stored access token and user id restore the session unless the access
   * token has expired, in which case storage is cleared.
   */
  function Init(s: Session, st: Store, decode: string -> Api.Decoded, now: int): (r: Step)
    // either key missing (or empty): nothing changes
    ensures !(Truthy(GetItem(st, AccessTokenKey)) && Truthy(GetItem(st, UserIdKey))) ==>
              r == Step(st, s)
    // both stored, access token expired: everything is cleared
    ensures Truthy(GetItem(st, AccessTokenKey)) && Truthy(GetItem(st, UserIdKey))
            && Api.IsTokenExpired(decode, now, st[AccessTokenKey]) ==>
              r == Step(Cleared, Unauthenticated)
    // both stored, access token live: authenticated as the parsed stored id
    ensures Truthy(GetItem(st, AccessTokenKey)) && Truthy(GetItem(st, UserIdKey))
            && !Api.IsTokenExpired(decode, now, st[AccessTokenKey]) ==>
              r == Step(st, Session(true, Some(JsText.ParseInt(st[UserIdKey]))))
    ensures Consistent(s) ==> Consistent(r.session)
    ensures Coherent(st) ==> Coherent(r.store)
  {
    var access := GetItem(st, AccessTokenKey);
    var storedUserId := GetItem(st, UserIdKey);
    if Truthy(access) && Truthy(storedUserId) then
      if Api.IsTokenExpired(decode, now, access.value) then Step(Cleared, Unauthenticated)
      else Step(st, Session(true, Some(JsText.ParseInt(storedUserId.value))))
    else
      Step(st, s)
  }

  /** The start-up check never looks at the refresh token. */
  lemma InitIgnoresRefreshToken(s: Session, st: Store, decode: string -> Api.Decoded, now: int, refresh: Option<string>)
    ensures var st' := if refresh.Some? then st[RefreshTokenKey := refresh.value] else st - {RefreshTokenKey};
            Init(s, st', decode, now).session == Init(s, st, decode, now).session
  {
  }

  /** `login(tokens)`: all three keys are written and the session is authenticated as the token's user. */
  function Login(st: Store, tokens: Api.AuthTokens): (r: Step)
    ensures r.store == Api.StoreTokens(st, tokens)
    ensures r.session.isAuthenticated
    ensures r.session.userId == Some(JsText.Num(tokens.userId))
    ensures Consistent(r.session) && Coherent(r.store)
  {
    Step(Api.StoreTokens(st, tokens), Session(true, Some(JsText.Num(tokens.userId))))
  }

  /** `handleLogout()`: storage is cleared and the session is unauthenticated, whatever came before. */
  function Logout(st: Store): (r: Step)
    ensures GetItem(r.store, AccessTokenKey) == None
    ensures GetItem(r.store, RefreshTokenKey) == None
    ensures GetItem(r.store, UserIdKey) == None
    ensures r.store == Cleared
    ensures !r.session.isAuthenticated && r.session.userId == None
    ensures Consistent(r.session) && Coherent(r.store)
  {
    Step(Cleared, Unauthenticated)
  }

  /**
   * A login survives a reload: the start-up effect, run on the storage a
   * login left, restores the very session the login produced, unless the
   * access token is empty (the start-up check treats it as missing) or has
   * expired by then.
   */
  lemma LoginThenReload(st: Store, tokens: Api.AuthTokens, decode: string -> Api.Decoded, now: int)
    ensures var after := Login(st, tokens);
            var reloaded := Init(Unauthenticated, after.store, decode, now);
            reloaded.session
              == if tokens.accessToken == "" || Api.IsTokenExpired(decode, now, tokens.accessToken)
                 then Unauthenticated else after.session
  {
    JsText.ParseIntOfIntToString(tokens.userId);
  }

  /** After a logout a reload finds nothing to restore. */
  lemma LogoutThenReload(st: Store, decode: string -> Api.Decoded, now: int)
    ensures Init(Unauthenticated, Logout(st).store, decode, now) == Logout(st)
  {
  }

  const MissingProviderMessage: string := "useAuth must be used within an AuthProvider"

  /** `useAuth()`: the provider's value, or an error outside any provider. */
  function UseAuth(provided: Option<Session>): (r: Result<Session>)
    ensures r.Ok? <==> provided.Some?
    ensures r.Ok? ==> r.value == provided.value
    ensures r.Err? ==> r.message == MissingProviderMessage
  {
    if provided.None? then Err(MissingProviderMessage) else Ok(provided.value)
  }

  /**
   * A provider only ever holds sessions made by start-up, `login` or
   * `logout`, so what `useAuth` hands out is always consistent.
   */
  lemma ProviderValueIsConsistent(st: Store, decode: string -> Api.Decoded, now: int, tokens: Api.AuthTokens)
    ensures var r := UseAuth(Some(Init(Unauthenticated, st, decode, now).session));
            r.Ok? && Consistent(r.value)
    ensures var r := UseAuth(Some(Login(st, tokens).session));
            r.Ok? && Consistent(r.value) && r.value.isAuthenticated
    ensures var r := UseAuth(Some(Logout(st).session));
            r.Ok? && Consistent(r.value) && !r.value.isAuthenticated
  {
  }
}

=== FILE: browser.dfy ===
/**
 * The browser facilities the session logic touches, as values: `localStorage`
 * is an immutable string map, and navigation is a path the model emits.
 */
module Browser {
  import opened Options

  /** The contents of `localStorage`. */
  type Store = map<string, string>

  const AccessTokenKey: string := "access_token"
  const RefreshTokenKey: string := "refresh_token"
  const UserIdKey: string := "user_id"

  /** The three keys the session writes and clears together. */
  const SessionKeys: set<string> := {AccessTokenKey, RefreshTokenKey, UserIdKey}

  /** `localStorage.clear()` leaves nothing behind. */
  const Cleared: Store := map[]

  const LoginPath: string := "/login"
  const SettingsPath: string := "/settings"

  /** `localStorage.getItem(key)`: `null` becomes `None`. */
  function GetItem(st: Store, key: string): (v: Option<string>)
    ensures v.Some? <==> key in st
    ensures v.Some? ==> v.value == st[key]
  {
    if key in st then Some(st[key]) else None
  }

  /** JavaScript truthiness of a stored string: neither `null` nor empty. */
  predicate Truthy(v: Option<string>) {
    v.Some? && v.value != ""
  }

  /**
   * The storage invariant of the session: the three session keys are either
   * all present or all absent, because they are only ever written or cleared
   * together or, on a token refresh, rewritten while already present.
   */
  predicate Coherent(st: Store) {
    (AccessTokenKey in st <==> RefreshTokenKey in st)
    && (AccessTokenKey in st <==> UserIdKey in st)
  }

  /** Writing a new access token and refresh token; every other key is kept. */
  function SetTokens(st: Store, access: string, refresh: string): (r: Store)
    ensures GetItem(r, AccessTokenKey) == Some(access)
    ensures GetItem(r, RefreshTokenKey) == Some(refresh)
    ensures r.Keys == st.Keys + {AccessTokenKey, RefreshTokenKey}
    ensures forall k :: k in st && k != AccessTokenKey && k != RefreshTokenKey ==> r[k] == st[k]
  {
    st[AccessTokenKey := access][RefreshTokenKey := refresh]
  }

  /** A refresh of tokens that were all stored keeps the store coherent. */
  lemma SetTokensKeepsCoherent(st: Store, access: string, refresh: string)
    requires Coherent(st)
    requires AccessTokenKey in st || RefreshTokenKey in st
    ensures Coherent(SetTokens(st, access, refresh))
    ensures GetItem(SetTokens(st, access, refresh), UserIdKey) == GetItem(st, UserIdKey)
  {
  }
}

=== FILE: jstext.dfy ===
/**
 * The few JavaScript string operations the session logic relies on:
 * `String.prototype.includes`, `Number.prototype.toString` on an integral
 * number, and `parseInt(s, 10)`.
 */
module JsText {

  // ---------------------------------------------------------------------
  // includes
  // ---------------------------------------------------------------------

  /** `needle` occupies positions `i .. i + |needle|` of `hay`. */
  ghost predicate OccursAt(hay: string, needle: string, i: int) {
    0 <= i && i + |needle| <= |hay| && hay[i..i + |needle|] == needle
  }

  /** `hay.includes(needle)`, scanning `hay` from the left. */
  predicate Includes(hay: string, needle: string)
    decreases |hay|
  {
    (|needle| <= |hay| && hay[..|needle|] == needle)
    || (|hay| > 0 && Includes(hay[1..], needle))
  }

  /** The scan finds the needle exactly when it occurs at some offset. */
  lemma {:induction false} IncludesIffOccurs(hay: string, needle: string)
    ensures Includes(hay, needle) <==> exists i :: OccursAt(hay, needle, i)
    decreases |hay|
  {
    if |needle| <= |hay| && hay[..|needle|] == needle {
      assert OccursAt(hay, needle, 0);
    } else if |hay| > 0 {
      var tail := hay[1..];
      IncludesIffOccurs(tail, needle);
      if Includes(tail, needle) {
        var i :| OccursAt(tail, needle, i);
        assert tail[i..i + |needle|] == hay[i + 1..i + 1 + |needle|];
        assert OccursAt(hay, needle, i + 1);
      }
      if exists i :: OccursAt(hay, needle, i) {
        var i :| OccursAt(hay, needle, i);
        if i != 0 {
          assert tail[i - 1..i - 1 + |needle|] == hay[i..i + |needle|];
          assert OccursAt(tail, needle, i - 1);
        }
      }
    }
  }

  // ---------------------------------------------------------------------
  // decimal digits
  // ---------------------------------------------------------------------

  predicate IsDigit(c: char) {
    '0' <= c <= '9'
  }

  predicate AllDigits(s: string) {
    forall k :: 0 <= k < |s| ==> IsDigit(s[k])
  }

  function DigitChar(d: nat): (c: char)
    requires d < 10
    ensures IsDigit(c) && c as int - '0' as int == d
  {
    ('0' as int + d) as char
  }

  function DigitValue(c: char): nat
    requires IsDigit(c)
  {
    c as int - '0' as int
  }

  /** The decimal numeral of `n`, most significant digit first. */
  function NatToDecimal(n: nat): (s: string)
    ensures |s| > 0 && AllDigits(s)
    ensures s[0] == '0' <==> n == 0
    decreases n
  {
    if n < 10 then [DigitChar(n)] else NatToDecimal(n / 10) + [DigitChar(n % 10)]
  }

  /** `n.toString()` for an integral number: a minus sign for negatives, then the digits of |n|. */
  function IntToString(n: int): (s: string)
    ensures |s| > 0
    ensures s[0] == '-' <==> n < 0
    ensures n >= 0 ==> AllDigits(s)
  {
    if n < 0 then "-" + NatToDecimal(-n) else NatToDecimal(n)
  }

  /** The value of a numeral, read most significant digit first. */
  function DecimalValue(ds: string): nat
    requires AllDigits(ds)
    decreases |ds|
  {
    if |ds| == 0 then 0 else DecimalValue(ds[..|ds| - 1]) * 10 + DigitValue(ds[|ds| - 1])
  }

  lemma {:induction false} DecimalValueOfNatToDecimal(n: nat)
    ensures DecimalValue(NatToDecimal(n)) == n
    decreases n
  {
    if n >= 10 {
      var s := NatToDecimal(n);
      assert s[..|s| - 1] == NatToDecimal(n / 10);
      DecimalValueOfNatToDecimal(n / 10);
    }
  }

  /** The longest prefix of `s` made of decimal digits. */
  function LeadingDigits(s: string): (p: string)
    ensures |p| <= |s| && p == s[..|p|]
    ensures AllDigits(p)
    ensures |p| < |s| ==> !IsDigit(s[|p|])
    decreases |s|
  {
    if |s| > 0 && IsDigit(s[0]) then [s[0]] + LeadingDigits(s[1..]) else ""
  }

  /** A numeral is its own longest digit prefix. */
  lemma LeadingDigitsOfNumeral(s: string)
    requires AllDigits(s)
    ensures LeadingDigits(s) == s
  {
  }

  // ---------------------------------------------------------------------
  // parseInt
  // ---------------------------------------------------------------------

  /** The white space and line terminators `parseInt` skips before a number. */
  predicate IsJsSpace(c: char) {
    var u := c as int;
    u == 0x09 || u == 0x0A || u == 0x0B || u == 0x0C || u == 0x0D || u == 0x20
    || u == 0xA0 || u == 0x1680 || (0x2000 <= u <= 0x200A) || u == 0x2028 || u == 0x2029
    || u == 0x202F || u == 0x205F || u == 0x3000 || u == 0xFEFF
  }

  /** `s` without its leading white space. */
  function TrimStart(s: string): (t: string)
    ensures |t| <= |s| && t == s[|s| - |t|..]
    ensures forall k :: 0 <= k < |s| - |t| ==> IsJsSpace(s[k])
    ensures |t| > 0 ==> !IsJsSpace(t[0])
    decreases |s|
  {
    if |s| > 0 && IsJsSpace(s[0]) then TrimStart(s[1..]) else s
  }

  /** A JavaScript number as far as `parseInt` can produce one. */
  datatype Number = Num(value: int) | NaN

  /**
   * `parseInt(s, 10)`: skip leading white space, read an optional sign, then
   * the longest run of decimal digits; no digits at all gives NaN.
   */
  function ParseInt(s: string): (r: Number)
    ensures s == "" ==> r == NaN
    ensures s != "" && IsDigit(s[0]) ==> r.Num? && r.value >= 0
    ensures s != "" && !IsJsSpace(s[0]) && !IsDigit(s[0]) && s[0] != '-' && s[0] != '+' ==> r == NaN
  {
    var t := TrimStart(s);
    var negative := |t| > 0 && t[0] == '-';
    var unsigned := if |t| > 0 && (t[0] == '-' || t[0] == '+') then t[1..] else t;
    var ds := LeadingDigits(unsigned);
    if ds == "" then NaN
    else if negative then Num(0 - DecimalValue(ds))
    else Num(DecimalValue(ds))
  }

  /** Reading back a number that was written with `toString` gives the number. */
  lemma ParseIntOfIntToString(n: int)
    ensures ParseInt(IntToString(n)) == Num(n)
  {
    var s := IntToString(n);
    assert !IsJsSpace(s[0]);
    assert TrimStart(s) == s;
    var digits := NatToDecimal(if n < 0 then -n else n);
    if n < 0 {
      assert s[1..] == digits;
    } else {
      assert s == digits;
    }
    LeadingDigitsOfNumeral(digits);
    DecimalValueOfNatToDecimal(if n < 0 then -n else n);
  }
}

=== FILE: options.dfy ===
/** Optional values and thrown-or-returned results, shared by every module of the model. */
module Options {

  /** A value that may be missing: JavaScript's `null` or `undefined`. */
  datatype Option<+T> = None | Some(value: T)

  /** A value returned normally, or the message of an `Error` that was thrown instead. */
  datatype Result<+T> = Ok(value: T) | Err(message: string)
}

=== FILE: routes.dfy ===
/**
 * The redirect decisions of `src/hooks/useProtectedRoute.ts` and of the home
 * page `src/app/page.tsx`, as functions of the authenticated flag and the path.
 */
module Routes {
  import opened Options
  import opened Browser

  /** `useProtectedRoute()`: where the router is pushed, if anywhere. */
  function ProtectedRedirect(isAuthenticated: bool, pathname: string): (r: Option<string>)
    ensures !isAuthenticated && pathname != LoginPath ==> r == Some(LoginPath)
    ensures isAuthenticated && pathname == LoginPath ==> r == Some(SettingsPath)
    ensures r.None? <==> (isAuthenticated != (pathname == LoginPath))
  {
    if !isAuthenticated && pathname != LoginPath then Some(LoginPath)
    else if isAuthenticated && pathname == LoginPath then Some(SettingsPath)
    else None
  }

  /** Arriving where the guard sent you, with the same flag, triggers no further redirect. */
  lemma ProtectedRedirectIsIdempotent(isAuthenticated: bool, pathname: string)
    ensures var r := ProtectedRedirect(isAuthenticated, pathname);
            r.Some? ==> ProtectedRedirect(isAuthenticated, r.value) == None
  {
  }

  /** What the home page does: the markup it renders and where it sends the router. */
  datatype HomeEffect = HomeEffect(markup: Option<string>, redirect: string)

  /** `Home()`: always exactly one redirect, chosen by the flag alone, and no markup. */
  function Home(isAuthenticated: bool): (e: HomeEffect)
    ensures e.markup.None?
    ensures isAuthenticated ==> e.redirect == SettingsPath
    ensures !isAuthenticated ==> e.redirect == LoginPath
  {
    HomeEffect(None, if isAuthenticated then SettingsPath else LoginPath)
  }

  /** The home page only sends the user where the guard lets them stay. */
  lemma HomeRedirectIsGuardStable(isAuthenticated: bool)
    ensures ProtectedRedirect(isAuthenticated, Home(isAuthenticated).redirect) == None
  {
  }
}

=== FILE: settingspage.dfy ===
/**
 * The status logic of the settings page `src/app/settings/page.tsx`: title
 * validation, the busy flags, the success and error messages, and the page's
 * logout. Each asynchronous handler is split into the part that runs before
 * its `await` and the part that runs once the awaited call has settled; an
 * outcome of `None` means the call is still in flight.
 */
module SettingsPage {
  import opened Options
  import opened Browser
  import Api
  import AuthContext

  datatype PageState = PageState(
    success: Option<string>,
    error: Option<string>,
    isUpdating: bool,
    isLoggingOut: bool,
    currentTitle: Option<string>,
    formTitle: Option<string>,
    isTitleLoading: bool)

  /** The state the page mounts with: the title is being fetched. */
  const Mounted: PageState := PageState(None, None, false, false, Some(""), None, true)

  const TitleRequiredMessage: string := "Title is required"
  const UpdatedMessage: string := "Title updated successfully!"
  const UpdateFailedMessage: string := "Update failed"
  const FetchFailedMessage: string := "Failed to fetch title"

  /** `titleSchema`: a title needs at least one character. */
  function ValidateTitle(title: string): (r: Result<string>)
    ensures r.Err? <==> title == ""
    ensures r.Ok? ==> r.value == title
    ensures r.Err? ==> r.message == TitleRequiredMessage
  {
    if |title| < 1 then Err(TitleRequiredMessage) else Ok(title)
  }

  /**
   * The schema guards the request: whatever `Submit` sends is a title the
   * schema accepts as it is, and whatever it refuses carries the schema's message.
   */
  lemma SubmitSendsOnlyValidTitles(p: PageState, title: string, outcome: Option<Api.Outcome>)
    ensures var e := Submit(p, title, outcome);
            (e.requestSent ==> ValidateTitle(title) == Ok(title))
            && (!e.requestSent ==> ValidateTitle(title) == Err(TitleRequiredMessage) && e.fieldError == Some(TitleRequiredMessage))
  {
  }

  /** The `disabled` condition shared by the title input and both buttons. */
  predicate ControlsDisabled(p: PageState) {
    p.isUpdating || p.isLoggingOut || p.isTitleLoading
  }

  /**
   * `response?.data?.message || fallback`: the server's message when it sent
   * a non-empty one, the fallback otherwise.
   */
  function ErrorText(err: Api.ApiError, fallback: string): (m: string)
    ensures var msg := if err.AxiosFailure? && err.response.Some? then err.response.value.data.message else None;
            m == if msg.Some? && msg.value != "" then msg.value else fallback
  {
    match err
    case AxiosFailure(Some(resp), _) =>
      if resp.data.message.Some? && resp.data.message.value != "" then resp.data.message.value else fallback
    case _ => fallback
  }

  /** The message shown is never empty when the fallback is not. */
  lemma ErrorTextIsNonEmpty(err: Api.ApiError, fallback: string)
    requires fallback != ""
    ensures ErrorText(err, fallback) != ""
  {
  }

  // ---------------------------------------------------------------------
  // fetchTitle
  // ---------------------------------------------------------------------

  /** The end of `fetchTitle`, once `getSiteTitle()` has settled with `outcome`. */
  function TitleFetched(p: PageState, outcome: Option<Api.Outcome>): (r: PageState)
    ensures outcome.None? ==> r == p
    ensures outcome.Some? ==> !r.isTitleLoading
    ensures outcome.Some? && outcome.value.Resolved? ==>
              r == p.(currentTitle := outcome.value.data.title, formTitle := outcome.value.data.title,
                      isTitleLoading := false)
    ensures outcome.Some? && outcome.value.Rejected? ==>
              r == p.(error := Some(ErrorText(outcome.value.error, FetchFailedMessage)), isTitleLoading := false)
  {
    match outcome
    case None => p
    case Some(Resolved(data)) => p.(currentTitle := data.title, formTitle := data.title, isTitleLoading := false)
    case Some(Rejected(e)) => p.(error := Some(ErrorText(e, FetchFailedMessage)), isTitleLoading := false)
  }

  // ---------------------------------------------------------------------
  // onSubmit
  // ---------------------------------------------------------------------

  /** The start of `onSubmit`: the page is busy and every control is disabled. */
  function BeginSubmit(p: PageState): (r: PageState)
    ensures r.isUpdating && ControlsDisabled(r)
    ensures r.(isUpdating := p.isUpdating) == p
  {
    p.(isUpdating := true)
  }

  /** The end of `onSubmit`, once `updateSiteTitle` has settled with `outcome`. */
  function SubmitSettled(p: PageState, outcome: Option<Api.Outcome>): (r: PageState)
    ensures outcome.None? ==> r == p
    ensures outcome.Some? ==> !r.isUpdating
    ensures outcome.Some? && outcome.value.Resolved? ==>
              r.success == Some(UpdatedMessage) && r.error == None
    ensures outcome.Some? && outcome.value.Rejected? ==>
              r.error == Some(ErrorText(outcome.value.error, UpdateFailedMessage)) && r.success == None
    // nothing else on the page changes; in particular the shown title stays
    ensures r.currentTitle == p.currentTitle && r.formTitle == p.formTitle
    ensures r.isLoggingOut == p.isLoggingOut && r.isTitleLoading == p.isTitleLoading
  {
    match outcome
    case None => p
    case Some(Resolved(_)) => p.(success := Some(UpdatedMessage), error := None, isUpdating := false)
    case Some(Rejected(e)) =>
      p.(error := Some(ErrorText(e, UpdateFailedMessage)), success := None, isUpdating := false)
  }

  /** The form's submission: validation errors, or whether the update was sent, and the page after it. */
  datatype SubmitEffect = SubmitEffect(page: PageState, fieldError: Option<string>, requestSent: bool)

  /**
   * `handleSubmit(onSubmit)` on the entered `title`: an empty title is refused
   * with the schema's message and no request; any other title is sent, and
   * `outcome` is what the update request settled with.
   */
  function Submit(p: PageState, title: string, outcome: Option<Api.Outcome>): (e: SubmitEffect)
    ensures e.requestSent <==> title != ""
    ensures !e.requestSent ==> e == SubmitEffect(p, Some(TitleRequiredMessage), false)
    ensures e.requestSent ==> e.page == SubmitSettled(BeginSubmit(p), outcome) && e.fieldError == None
  {
    match ValidateTitle(title)
    case Err(msg) => SubmitEffect(p, Some(msg), false)
    case Ok(_) => SubmitEffect(SubmitSettled(BeginSubmit(p), outcome), None, true)
  }

  /**
   * A settled submission leaves exactly one status message, restores the
   * controls to what they were before, and keeps the page busy while pending.
   */
  lemma SubmitSettlesCleanly(p: PageState, title: string, outcome: Option<Api.Outcome>)
    requires title != ""
    ensures var r := Submit(p, title, outcome).page;
            if outcome.Some? then
              && (r.success.Some? != r.error.Some?)
              && ControlsDisabled(r) == ControlsDisabled(p.(isUpdating := false))
            else
              r.isUpdating && ControlsDisabled(r)
  {
  }

  /**
   * A submission on an expired session (both tokens expired) is refused by
   * the client before any network call, and the page reports the generic
   * failure message while storage stays as it was.
   */
  lemma ExpiredSessionSubmitShowsFallback(
    p: PageState, title: string, st: Store, cfg: Api.Config, decode: string -> Api.Decoded, rounds: seq<Api.Round>)
    requires title != "" && |rounds| > 0
    requires Truthy(GetItem(st, AccessTokenKey))
    requires Api.IsTokenExpired(decode, rounds[0].now, st[AccessTokenKey])
    requires Truthy(GetItem(st, RefreshTokenKey))
    requires Api.IsTokenExpired(decode, rounds[0].now, st[RefreshTokenKey])
    ensures var t := Api.Dispatch(st, cfg, decode, rounds);
            && t.store == st && t.refreshCalls == 0
            && Submit(p, title, t.outcome).page.error == Some(UpdateFailedMessage)
  {
  }

  /** From mount, the controls stay disabled until the title fetch settles and are enabled after. */
  lemma ControlsEnabledOnceTitleSettles(outcome: Option<Api.Outcome>)
    ensures ControlsDisabled(Mounted)
    ensures ControlsDisabled(TitleFetched(Mounted, outcome)) <==> outcome.None?
  {
  }

  // ---------------------------------------------------------------------
  // handleLogout
  // ---------------------------------------------------------------------

  /** Everything the page's logout affects. */
  datatype LogoutEffect = LogoutEffect(
    page: PageState,
    session: AuthContext.Session,
    store: Store,
    navigation: Option<string>)

  /** The start of `handleLogout`: the page is busy and every control is disabled. */
  function BeginLogout(p: PageState): (r: PageState)
    ensures r.isLoggingOut && ControlsDisabled(r)
    ensures r.(isLoggingOut := p.isLoggingOut) == p
  {
    p.(isLoggingOut := true)
  }

  /**
   * The end of `handleLogout`, given what the API `logout()` did: only a
   * successful API logout is followed by the context's logout and the push to
   * the login page; a failure propagates and changes nothing else.
   */
  function LogoutSettled(p: PageState, s: AuthContext.Session, api: Api.LogoutStep): (e: LogoutEffect)
    ensures api.outcome.LogoutPending? ==> e == LogoutEffect(p, s, api.store, None)
    ensures !api.outcome.LogoutPending? ==> e.page == p.(isLoggingOut := false)
    ensures api.outcome.LoggedOut? ==>
              e.session == AuthContext.Unauthenticated && e.store == Cleared && e.navigation == Some(LoginPath)
    ensures api.outcome.LogoutFailed? ==>
              e.session == s && e.store == api.store && e.navigation == None
  {
    match api.outcome
    case LogoutPending => LogoutEffect(p, s, api.store, None)
    case LoggedOut =>
      var ctx := AuthContext.Logout(api.store);
      LogoutEffect(p.(isLoggingOut := false), ctx.session, ctx.store, Some(LoginPath))
    case LogoutFailed(_) => LogoutEffect(p.(isLoggingOut := false), s, api.store, None)
  }

  /** The whole of `handleLogout`: the API logout through the client, then the page's reaction. */
  function HandleLogout(p: PageState, s: AuthContext.Session, st: Store, decode: string -> Api.Decoded, rounds: seq<Api.Round>)
    : (e: LogoutEffect)
    ensures e.navigation == Some(LoginPath) <==> Api.Logout(st, decode, rounds).outcome.LoggedOut?
    ensures e.navigation.Some? ==> !e.session.isAuthenticated && e.store == Cleared && !e.page.isLoggingOut
    ensures e.navigation.None? ==> e.session == s
    ensures AuthContext.Consistent(s) ==> AuthContext.Consistent(e.session)
  {
    LogoutSettled(BeginLogout(p), s, Api.Logout(st, decode, rounds))
  }
}
